=== FILE: README.md ===
# vibespeak dispatch core in Dafny

vibespeak listens to a microphone and feeds the audio to a speech recogniser.
In listening mode, each new partial transcript is trimmed, lower-cased and
looked up in a table of trigger phrases. A match runs the mapped shell command.
The phrase `type on` switches to typing mode instead. In typing mode, each
finalised transcript is trimmed and typed with `xdotool`, quoted for the
shell. Esc, a terminal error or the end of the microphone stream returns to
listening.

This project models that logic as pure functions over explicit state. It
proves the properties the program relies on.

- `options.dfy`: the `Option` type.
- `text.dfy` (module `Text`): `str::trim` with the Unicode White_Space set,
  ASCII lower-casing, and the normal form used for partial transcripts.
- `pcm.dfy` (module `Pcm`): the `chunks_exact(2)` / `i16::from_le_bytes`
  decoding of each read buffer into signed 16-bit samples. It includes the
  encoder it inverts.
- `shell.dfy` (module `ShellQuote`): the `'` → `'\''` escape and the typing
  command line. They are proved correct against a reader of shell words that follows
  the single-quote and backslash rules of the POSIX Shell Command Language
  (XCU section 2.2.1 "Escape Character" and section 2.2.2 "Single-Quotes").
- `dispatch.dfy` (module `Dispatch`): one iteration of the listening loop.
  This covers de-duplication of partials, the `type on` toggle, exact-match
  command lookup and the 1200 ms silence reset.
- `session.dfy` (module `Session`): both loops as one machine over events. It
  has a listening mode, a typing mode and a halted mode, and it emits three
  kinds of effect: an `sh -c` spawn, a start of `rec` with a new recogniser,
  and a recogniser reset.

Time is an abstract millisecond counter. `Instant::elapsed` is modelled as a
subtraction that saturates at zero.

Command lookup is by exact match only, and `type on` is the single toggle
phrase. The silence window is 1200 ms. Typing mode ends only on Esc, on a
terminal error or at the end of the stream. A chunk the recogniser rejects is
fatal: `?` at line 112 returns from `main`, and `unwrap` at lines 64 and 134
panics. The model therefore enters `Halted`.

## Model

| member | source | states |
|---|---|---|
| Text.Trim | src/main.rs:114 | the trimmed text is the unique slice of the input that neither starts nor ends with whitespace and is surrounded only by whitespace; it is empty exactly when the input is all whitespace |
| Text.LowerChar | src/main.rs:114 | `A`–`Z` map to `a`–`z` (code point plus 32), every other character is unchanged, and no result is an upper-case ASCII letter |
| Text.Lower | src/main.rs:114 | lower-casing keeps the length, shifts exactly the upper-case ASCII letters by 32, keeps every other character, and leaves no upper-case ASCII letter |
| Text.Normalize | src/main.rs:114 | the compared partial is no longer than the transcript, has no whitespace at either end and no upper-case ASCII letter, and is empty exactly when the transcript is all whitespace |
| Text.NormalizeIsLoweredSlice | src/main.rs:114 | the normal form is the trimmed text lower-cased character by character: it starts where the leading whitespace ends, each of its characters is the lower-cased input character at that offset, and only whitespace follows it |
| Text.NormalizeIdempotent | src/main.rs:114 | trimming then lower-casing a transcript twice gives the same result as doing it once |
| Pcm.FromLe | src/main.rs:61 | a decoded sample is the two's-complement reading of `lo + 256*hi`: it is congruent to that value mod 65536 and is negative exactly when the high byte's top bit is set |
| Pcm.ToLeFromLe | src/main.rs:61 | `from_le_bytes` is injective: the byte pair is recovered from its sample |
| Pcm.Decode | src/main.rs:59-62 | decoding n bytes yields exactly n/2 samples (floor), and sample i is `from_le_bytes(b[2i], b[2i+1])` |
| Pcm.DecodeRead | src/main.rs:107-110 | the pairwise loop over `buffer[..n]` produces n/2 samples, each from its own byte pair, which equals the functional decoding |
| Pcm.DecodeEncode | src/main.rs:59-62 | decoding the little-endian encoding of any i16 sequence returns that sequence |
| Pcm.EncodeDecode | src/main.rs:59-62 | an even-length buffer is exactly the encoding of its decoding, so decoding loses nothing but an odd trailing byte |
| Pcm.OddByteDropped | src/main.rs:60 | a trailing odd byte has no effect on the decoded samples |
| Pcm.EvenReadsCompose | src/main.rs:103-110 | decoding two reads separately equals decoding their concatenation when the first read has even length |
| Pcm.OddReadShifts | src/main.rs:103-110 | after a read of odd length, decoding the whole stream pairs that read's last byte with the next read's first byte, so every later byte is paired differently from decoding the reads one by one |
| Pcm.OddReadsLoseSample | src/main.rs:103-110 | two reads of odd length, decoded one by one, yield exactly one sample fewer than their concatenation |
| Pcm.OddReadMisaligns | src/main.rs:103-110 | one concrete case: the stream 01 02 03 read as [01] and [02 03] decodes to the sample 0x0302, while decoding the stream whole gives 0x0201 |
| ShellQuote.Escape | src/main.rs:69 | escaping never shortens the text, and it leaves the text unchanged exactly when the text has no single quote |
| ShellQuote.EscapeLength | src/main.rs:69 | escaping adds exactly three characters per single quote in the text |
| ShellQuote.Quote | src/main.rs:70 | the argument opens and closes with a single quote and is two characters longer than the text plus three per single quote in it |
| ShellQuote.EscapedReadsBack | src/main.rs:69-70 | inside single quotes, the escaped text followed by a closing quote is read by the shell's quoting rules as exactly the original text |
| ShellQuote.QuotedWordReadsBack | src/main.rs:69-70 | a quoted argument at the end of a command line completes exactly one more word, equal to the text |
| ShellQuote.QuoteReadsBack | src/main.rs:69-70 | `'` + escape(t) + `'` is read by the shell as the single word t, for every t |
| ShellQuote.QuoteInjective | src/main.rs:69-70 | distinct texts give distinct quoted arguments |
| ShellQuote.TypeLineWords | src/main.rs:70 | the typing command line splits into exactly the words `xdotool`, `type` and the text |
| ShellQuote.TypeCommand | src/main.rs:67-72 | nothing is typed when the finalised text is blank; otherwise the spawned line's third shell word is the trimmed text |
| Dispatch.StartPass | src/main.rs:95-100 | a fresh pass records the current time as the last speech and has no pending partial, so the silence timer cannot fire and every non-empty partial is new |
| Dispatch.Elapsed | src/main.rs:146 | the elapsed time is the least non-negative duration that, added to the start instant, reaches the current one, so it is zero when the clock reads earlier |
| Dispatch.Hear | src/main.rs:114-131 | an empty or unchanged partial changes nothing; a new partial is recorded with its time before anything else; `type on` enters typing mode; otherwise a command runs exactly when the partial is a key with a non-empty value, and that value is the command run |
| Dispatch.CheckSilence | src/main.rs:146-150 | the pending partial is cleared, and the recogniser reset, exactly when a partial is pending and at least 1200 ms have elapsed since it was heard; the time of last speech is kept |
| Dispatch.Step | src/main.rs:115-150 | the decision is the one hearing the partial takes; the recogniser is reset exactly when the loop stays in listening mode and the partial remembered after hearing is non-empty and at least 1200 ms old; without a reset the state is the one hearing left, and a reset clears the remembered partial; a new partial is never cleared in the iteration that heard it unless that iteration took 1200 ms |
| Dispatch.HearingTwiceIsStale | src/main.rs:115-116 | hearing the partial that was just recorded again, at any time, decides nothing and changes nothing |
| Dispatch.ToggleShadowsCommand | src/main.rs:119-124 | `type on` switches to typing mode and runs nothing, even when it is a key in the command table |
| Dispatch.SilenceRearms | src/main.rs:146-148 | after the silence reset clears a partial that ran a command, hearing the same partial again runs the same command again |
| Dispatch.DispatchedKeyIsNormal | src/main.rs:114-125 | a command that runs was looked up under the normalised partial, which is itself in normal form, so a table key with capitals or surrounding blanks can never run |
| Dispatch.RepeatedPartialDecidesOnce | src/main.rs:114-117 | feeding the same partial any number of times at one instant yields at most one decision |
| Session.HearChunk | src/main.rs:114-150 | for an accepted chunk with normalised partial p: `sh -c` runs the command c exactly when p is new, non-empty, not `type on`, and a key whose value c is non-empty; the next listener is the one `Step` leaves; typing mode is entered exactly on a new `type on`, and entering it only starts the microphone; the recogniser is reset exactly when the silence check fires; each effect occurs at most once, and the command is spawned before the reset |
| Session.ListeningNext | src/main.rs:94-150 | while listening, with each partial trimmed and lower-cased first: only a decode failure halts, and it has no effect; a new partial that is a key with a non-empty value spawns exactly that value, and nothing else is ever spawned; typing mode is entered exactly on a new `type on`, and entering it starts `rec` and spawns nothing; the recogniser is reset exactly when the silence check fires; each effect occurs at most once; the end of the stream starts `rec` again for a fresh pass; a key press, a terminal error or a failed read (skipped at line 103) changes nothing |
| Session.TypeFinal | src/main.rs:64-75 | a blank or missing final result spawns nothing; a non-blank one spawns one `xdotool type` line whose third shell word is the trimmed text |
| Session.TypingNext | src/main.rs:35-81 | while typing: only a decode failure halts, and it types nothing; every `sh -c` spawn is an `xdotool type` line and no reset happens; a chunk spawns what `TypeFinal` gives for its final result and never leaves typing mode; another key or a failed read does nothing; typing ends exactly on Esc, a terminal error or the end of the stream, and ending it starts `rec` for a fresh listening pass with an empty last partial |
| Session.Next | src/main.rs:94-153 | the combined loop: a decode failure is fatal and has no effect, and halting is permanent; listening spawns exactly the value of a new key, at most once, starts `rec` on a chunk only when entering typing, resets the recogniser exactly when the silence check fires, enters typing exactly on a new `type on`, restarts at the end of the stream, and ignores keys, terminal errors and failed reads; typing types each final result as `TypeFinal` does, ignores other keys and failed reads, and ends exactly on Esc, a terminal error or the end of the stream, each starting a fresh pass |
| Session.TypingTypesFinalText | src/main.rs:64-75 | every non-blank finalised text, including `type on`, is typed as a single shell word equal to the trimmed text, and typing mode continues |
| Session.TypingSkipsBlank | src/main.rs:64-78 | a blank finalised text, or a chunk without a single final result, types nothing |
| Session.Run | src/main.rs:94-153 | a run of the loops over a sequence of events ends stopped exactly when it started stopped or some chunk failed to decode; no events leave the mode as it was |
| Session.HaltedIsFinal | src/main.rs:112 | once the program has stopped, no event has any effect |
| Session.RunSpawnsOnlyKnownLines | src/main.rs:69-131 | over any run of events, the only `sh -c` lines spawned are configured non-empty commands and `xdotool type` lines |

## Left out

- Loading the command table (src/config.rs): it only reads and parses TOML. The table is a given immutable `map<string, string>`.
- Spawning processes: every `sh -c` spawn and every later start of `rec` (line 39 on entering typing mode, line 96 on each new pass) appear only as effects. The first start of `rec`, before any event, is not an effect: a run begins in listening mode with that pass already started. A spawn that fails is printed and not retried, and nothing in the state depends on it, so spawn failures are not modelled.
- A `rec` subprocess that fails to start (`?` at line 96, `unwrap` at line 39) is not an event of the model. Neither is the old `rec` process that is left running when a pass restarts.
- The recogniser (`accept_waveform`, `partial_result`, `result`, `reset`) is foreign code. Its partial and final texts are event inputs. Line 112 and line 134 both feed the same samples to it; this double feed is not modelled.
- The "Final recognized" print in listening mode (lines 134-144) has no behavioural effect. All other `println!`/`eprintln!` output is left out too.
- Terminal raw mode and key polling (lines 43-53, 83) are left out. They appear as key and terminal-failure events.
- Text.LowerChar: lower-cases ASCII `A`–`Z` only. Rust's `to_lowercase` also maps non-ASCII letters, and may turn one character into several; neither is modelled.
- Text.Lower: inherits the ASCII-only lower-casing of `Text.LowerChar`.
- Text.Normalize: inherits the ASCII-only lower-casing, so a non-ASCII capital stays unchanged in the normal form.
- Text.NormalizeIsLoweredSlice: states the character-wise relation for the ASCII-only lower-casing.
- Dispatch.DispatchedKeyIsNormal: "a key with capitals can never run" holds for ASCII capitals only, for the same reason.
- ShellQuote.Words: the shell reader covers blanks, single quotes, backslash escapes and plainly literal characters only. It returns `None` for any other unquoted character, such as `$`, `*`, `;` or `=`. This is enough for every line typing mode builds.
- Dispatch.RepeatedPartialDecidesOnce: feeds all repetitions at one instant. Across instants, the silence reset can re-arm the same partial, which `Dispatch.SilenceRearms` states.

=== FILE: dispatch.dfy ===
/**
  One iteration of the listening loop, after the recogniser has accepted an
  audio chunk: the new partial transcript, trimmed and lower-cased by the
  caller, is compared with the last one, and either ignored, turned into a
  switch to typing mode, turned into a command to run, or merely remembered;
  then the silence timer may clear the remembered partial and reset the
  recogniser.

  Time is an abstract millisecond counter. Two instants are read per
  iteration: `heardAt` when the new partial is recorded and `checkedAt` when
  the silence timer is consulted afterwards.
 */
module Dispatch {
  import opened Text

  /** The one phrase that switches to typing mode. */
  const TogglePhrase: string := "type on"

  /** Quiet time after the last distinct partial before the pass is reset. */
  const SilenceWindowMs: nat := 1200

  /** The loop state of one decode pass. */
  datatype Listener = Listener(lastPartial: string, lastSpeech: nat)

  /** The state every decode pass starts from: no partial is pending, so the
      silence timer cannot fire, and every non-empty partial counts as new. */
  function StartPass(now: nat): (l: Listener)
    ensures l.lastSpeech == now
    ensures forall t :: !CheckSilence(l, t).1
    ensures forall commands, p, t :: p != "" ==> Hear(commands, l, p, t).1 != Stale
  {
    Listener("", now)
  }

  /** What hearing a partial decides. `Stale`: empty or unchanged partial, no
      effect at all. `Unmatched`: a new partial with no runnable command. */
  datatype Decision = Stale | Unmatched | EnterTyping | RunCommand(cmd: string)

  /** `Instant::elapsed`, which saturates at zero: the least time that,
      added to `since`, reaches `now`. */
  function Elapsed(since: nat, now: nat): (d: nat)
    ensures since + d >= now
    ensures d == 0 || since + d == now
  {
    if now >= since then now - since else 0
  }

  /** Reacts to one normalised partial. A new partial is recorded with its
      time before anything else; the toggle phrase is tested before the
      command table; a command runs only if its action is non-empty. */
  function Hear(commands: map<string, string>, l: Listener, partial: string, now: nat)
    : (r: (Listener, Decision))
    ensures r.1 == Stale <==> partial == "" || partial == l.lastPartial
    ensures r.1 == Stale ==> r.0 == l
    ensures r.1 != Stale ==> r.0 == Listener(partial, now)
    ensures r.1 == EnterTyping <==> r.1 != Stale && partial == TogglePhrase
    ensures r.1.RunCommand? <==>
      && r.1 != Stale
      && partial != TogglePhrase
      && partial in commands
      && commands[partial] != ""
    ensures r.1.RunCommand? ==> r.1.cmd == commands[partial]
  {
    if partial == "" || partial == l.lastPartial then (l, Stale)
    else
      var heard := Listener(partial, now);
      if partial == TogglePhrase then (heard, EnterTyping)
      else if partial in commands && commands[partial] != "" then (heard, RunCommand(commands[partial]))
      else (heard, Unmatched)
  }

  /** The silence timer: once a partial is pending and the window has passed
      since it was heard, forget it (and reset the recogniser). The time of
      the last speech is kept. */
  function CheckSilence(l: Listener, now: nat): (r: (Listener, bool))
    ensures r.1 <==> l.lastPartial != "" && Elapsed(l.lastSpeech, now) >= SilenceWindowMs
    ensures r.0.lastSpeech == l.lastSpeech
    ensures r.0.lastPartial == if r.1 then "" else l.lastPartial
  {
    if l.lastPartial != "" && Elapsed(l.lastSpeech, now) >= SilenceWindowMs then
      (l.(lastPartial := ""), true)
    else
      (l, false)
  }

  /** The result of one loop iteration. `reset` means the recogniser was
      reset by the silence timer. */
  datatype Outcome = Outcome(listener: Listener, decision: Decision, reset: bool)

  /** One full iteration on the normalised partial: hear it, and (unless the
      loop left for typing mode) consult the silence timer. */
  function Step(commands: map<string, string>, l: Listener, partial: string, heardAt: nat, checkedAt: nat)
    : (o: Outcome)
    // the decision is the one hearing the partial takes
    ensures o.decision == Hear(commands, l, partial, heardAt).1
    // the timer fires exactly when the loop stays and the remembered partial is old enough
    ensures o.reset <==>
      var heard := Hear(commands, l, partial, heardAt).0;
      && o.decision != EnterTyping
      && heard.lastPartial != ""
      && Elapsed(heard.lastSpeech, checkedAt) >= SilenceWindowMs
    // without a reset the state is the one hearing left
    ensures !o.reset ==> o.listener == Hear(commands, l, partial, heardAt).0
    ensures o.decision == EnterTyping ==> !o.reset
    ensures o.reset ==> o.listener.lastPartial == ""
    ensures o.decision != Stale && Elapsed(heardAt, checkedAt) < SilenceWindowMs ==> !o.reset
    ensures o.decision == Stale && !o.reset ==> o.listener == l
  {
    var (heard, d) := Hear(commands, l, partial, heardAt);
    if d == EnterTyping then Outcome(heard, d, false)
    else
      var (checked, reset) := CheckSilence(heard, checkedAt);
      Outcome(checked, d, reset)
  }

  /** Hearing the same partial again right after it was heard decides
      nothing and changes nothing, at any later time. */
  lemma HearingTwiceIsStale(
    commands: map<string, string>, l: Listener, partial: string, t1: nat, t2: nat)
    ensures var (l1, _) := Hear(commands, l, partial, t1);
      Hear(commands, l1, partial, t2) == (l1, Stale)
  {
  }

  /** The toggle phrase wins over the command table: even when "type on" is
      itself a configured command, hearing it switches mode and runs
      nothing. */
  lemma ToggleShadowsCommand(commands: map<string, string>, l: Listener, heardAt: nat, checkedAt: nat)
    requires l.lastPartial != TogglePhrase
    ensures Step(commands, l, TogglePhrase, heardAt, checkedAt)
         == Outcome(Listener(TogglePhrase, heardAt), EnterTyping, false)
  {
  }

  /** After the silence timer has cleared a partial, the same words count as
      new again and run their command a second time. */
  lemma SilenceRearms(
    commands: map<string, string>, l: Listener, partial: string, t1: nat, t2: nat, t3: nat, cmd: string)
    requires Hear(commands, l, partial, t1).1 == RunCommand(cmd)
    requires CheckSilence(Hear(commands, l, partial, t1).0, t2).1
    ensures Hear(commands, CheckSilence(Hear(commands, l, partial, t1).0, t2).0, partial, t3)
         == (Listener(partial, t3), RunCommand(cmd))
  {
  }

  /** Only keys already in normal form can ever be dispatched: a configured
      phrase with capitals or surrounding blanks never matches. */
  lemma DispatchedKeyIsNormal(
    commands: map<string, string>, l: Listener, raw: string, heardAt: nat, checkedAt: nat)
    requires Step(commands, l, Normalize(raw), heardAt, checkedAt).decision.RunCommand?
    ensures var key := Normalize(raw);
      && key in commands
      && Normalize(key) == key
      && Step(commands, l, Normalize(raw), heardAt, checkedAt).decision.cmd == commands[key]
  {
    NormalizeIdempotent(raw);
  }

  /** Feeds normalised partials one after another at the same instant,
      stopping when the loop leaves for typing mode. */
  function Replay(commands: map<string, string>, l: Listener, partials: seq<string>, now: nat)
    : (r: seq<Outcome>)
    ensures |r| <= |partials|
    ensures partials != [] ==> |r| > 0 && r[0] == Step(commands, l, partials[0], now, now)
    // only the last outcome can leave for typing mode, and only leaving stops early
    ensures forall i :: 0 <= i < |r| - 1 ==> r[i].decision != EnterTyping
    ensures |r| < |partials| ==> r[|r| - 1].decision == EnterTyping
    decreases |partials|
  {
    if partials == [] then []
    else
      var o := Step(commands, l, partials[0], now, now);
      if o.decision == EnterTyping then [o]
      else [o] + Replay(commands, o.listener, partials[1..], now)
  }

  /** The number of outcomes that decided something. */
  function Decided(os: seq<Outcome>): (n: nat) {
    if os == [] then 0 else (if os[0].decision == Stale then 0 else 1) + Decided(os[1..])
  }

  /** From a state that the partial leaves untouched, repeating it decides
      nothing. */
  lemma {:induction false} SteadyReplay(
    commands: map<string, string>, l: Listener, partial: string, n: nat, now: nat)
    requires Step(commands, l, partial, now, now) == Outcome(l, Stale, false)
    ensures Decided(Replay(commands, l, seq(n, _ => partial), now)) == 0
    decreases n
  {
    if n > 0 {
      var ps := seq(n, _ => partial);
      assert ps[0] == partial;
      assert ps[1..] == seq(n - 1, _ => partial);
      SteadyReplay(commands, l, partial, n - 1, now);
    }
  }

  /** Idempotence: however often the same partial is fed, at most one
      decision (a command, the mode switch, or an unmatched new partial) comes
      out; the silence timer may re-arm it once, never twice. */
  lemma {:induction false} RepeatedPartialDecidesOnce(
    commands: map<string, string>, l: Listener, partial: string, n: nat, now: nat)
    ensures Decided(Replay(commands, l, seq(n, _ => partial), now)) <= 1
    decreases n
  {
    if n > 0 {
      var ps := seq(n, _ => partial);
      assert ps[0] == partial;
      assert ps[1..] == seq(n - 1, _ => partial);
      var o := Step(commands, l, partial, now, now);
      if o.decision == Stale {
        RepeatedPartialDecidesOnce(commands, o.listener, partial, n - 1, now);
      } else if o.decision != EnterTyping {
        HearingTwiceIsStale(commands, l, partial, now, now);
        SteadyReplay(commands, o.listener, partial, n - 1, now);
      }
    }
  }
}

=== FILE: options.dfy ===
/** The optional value used where the program returns `Option` or skips work. */
module Options {

  datatype Option<+T> = None | Some(value: T)
}

=== FILE: pcm.dfy ===
/**
  Decoding of the microphone's raw byte stream (mono, 16-bit signed
  little-endian PCM) into the sample slices handed to the recogniser. Both the
  listening loop and the typing loop read into a 4096-byte buffer and fold
  `buffer[..n]` pairwise with `chunks_exact(2)` and `i16::from_le_bytes`.
 */
module Pcm {

  newtype byte = b: int | 0 <= b < 256

  newtype i16 = x: int | -0x8000 <= x < 0x8000

  /** `i16::from_le_bytes([lo, hi])`: the two's-complement sample whose
      16-bit pattern is `lo + 256 * hi`. */
  function FromLe(lo: byte, hi: byte): (s: i16)
    ensures (s as int) % 0x1_0000 == lo as int + 256 * hi as int
    ensures s < 0 <==> hi >= 0x80
  {
    var u := lo as int + 256 * hi as int;
    if u < 0x8000 then u as i16 else (u - 0x1_0000) as i16
  }

  /** `i16::to_le_bytes`: the low byte, then the high byte. */
  function ToLe(s: i16): (b: (byte, byte))
    ensures FromLe(b.0, b.1) == s
  {
    var u := (s as int) % 0x1_0000;
    ((u % 256) as byte, (u / 256) as byte)
  }

  /** A byte pair is recovered from the sample it encodes. */
  lemma ToLeFromLe(lo: byte, hi: byte)
    ensures ToLe(FromLe(lo, hi)) == (lo, hi)
  {
    var s := FromLe(lo, hi);
    var u := lo as int + 256 * hi as int;
    assert (s as int) % 0x1_0000 == u;
  }

  /** The `chunks_exact(2)` fold: one sample per complete byte pair; a
      trailing odd byte is not part of any pair and is dropped. */
  function Decode(buf: seq<byte>): (r: seq<i16>)
    ensures |r| == |buf| / 2
    ensures forall i :: 0 <= i < |r| ==> r[i] == FromLe(buf[2 * i], buf[2 * i + 1])
  {
    if |buf| < 2 then [] else [FromLe(buf[0], buf[1])] + Decode(buf[2..])
  }

  /** Serialises samples as consecutive little-endian byte pairs. */
  function Encode(xs: seq<i16>): (r: seq<byte>)
    ensures |r| == 2 * |xs|
    ensures forall i :: 0 <= i < |xs| ==> (r[2 * i], r[2 * i + 1]) == ToLe(xs[i])
  {
    if xs == [] then [] else [ToLe(xs[0]).0, ToLe(xs[0]).1] + Encode(xs[1..])
  }

  /** The decoding loop over `buffer[..n]` as the program runs it: walk the
      complete pairs in order and push one sample per pair. */
  method DecodeRead(buffer: seq<byte>, n: nat) returns (samples: seq<i16>)
    requires n <= |buffer|
    ensures |samples| == n / 2
    ensures forall i :: 0 <= i < |samples| ==>
      samples[i] == FromLe(buffer[2 * i], buffer[2 * i + 1])
    ensures samples == Decode(buffer[..n])
  {
    samples := [];
    var pos := 0;
    while pos + 2 <= n
      invariant pos == 2 * |samples|
      invariant pos <= n
      invariant forall i :: 0 <= i < |samples| ==>
        samples[i] == FromLe(buffer[2 * i], buffer[2 * i + 1])
      decreases n - pos
    {
      samples := samples + [FromLe(buffer[pos], buffer[pos + 1])];
      pos := pos + 2;
    }
    DecodeReadAgrees(buffer, n, samples);
  }

  /** The method computes exactly the functional decoding of `buffer[..n]`. */
  lemma DecodeReadAgrees(buffer: seq<byte>, n: nat, samples: seq<i16>)
    requires n <= |buffer|
    requires |samples| == n / 2
    requires forall i :: 0 <= i < |samples| ==>
      samples[i] == FromLe(buffer[2 * i], buffer[2 * i + 1])
    ensures samples == Decode(buffer[..n])
  {
    var d := Decode(buffer[..n]);
    forall i | 0 <= i < |samples|
      ensures samples[i] == d[i]
    {
      assert buffer[..n][2 * i] == buffer[2 * i];
      assert buffer[..n][2 * i + 1] == buffer[2 * i + 1];
    }
  }

  /** Round trip: decoding the little-endian encoding of any sample sequence
      gives the sequence back. */
  lemma DecodeEncode(xs: seq<i16>)
    ensures Decode(Encode(xs)) == xs
  {
    var e := Encode(xs);
    var d := Decode(e);
    forall i | 0 <= i < |xs|
      ensures d[i] == xs[i]
    {
      assert (e[2 * i], e[2 * i + 1]) == ToLe(xs[i]);
    }
  }

  /** The other direction: an even-length byte buffer is exactly the encoding
      of its decoding, so nothing but the odd trailing byte is ever lost. */
  lemma EncodeDecode(buf: seq<byte>)
    requires |buf| % 2 == 0
    ensures Encode(Decode(buf)) == buf
  {
    var d := Decode(buf);
    var e := Encode(d);
    forall i | 0 <= i < |d|
      ensures e[2 * i] == buf[2 * i] && e[2 * i + 1] == buf[2 * i + 1]
    {
      ToLeFromLe(buf[2 * i], buf[2 * i + 1]);
    }
    forall j | 0 <= j < |buf|
      ensures e[j] == buf[j]
    {
      var i := j / 2;
      assert j == 2 * i || j == 2 * i + 1;
    }
  }

  /** A trailing odd byte has no effect on the decoded samples. */
  lemma OddByteDropped(buf: seq<byte>, b: byte)
    requires |buf| % 2 == 0
    ensures Decode(buf + [b]) == Decode(buf)
  {
    var l := buf + [b];
    assert forall i :: 0 <= i < |buf| ==> l[i] == buf[i];
  }

  /** Decoding each read separately agrees with decoding the whole stream as
      long as every read but the last delivers an even number of bytes. */
  lemma EvenReadsCompose(a: seq<byte>, b: seq<byte>)
    requires |a| % 2 == 0
    ensures Decode(a) + Decode(b) == Decode(a + b)
  {
    var l := Decode(a) + Decode(b);
    var r := Decode(a + b);
    forall i | 0 <= i < |r|
      ensures l[i] == r[i]
    {
      if i < |a| / 2 {
        assert (a + b)[2 * i] == a[2 * i];
        assert (a + b)[2 * i + 1] == a[2 * i + 1];
      } else {
        var k := i - |a| / 2;
        assert (a + b)[2 * i] == b[2 * k];
        assert (a + b)[2 * i + 1] == b[2 * k + 1];
      }
    }
  }

  /** Decoding the whole stream after a read of odd length pairs that read's
      last byte with the first byte of the next read: every later byte sits in
      the other half of its pair compared with decoding the reads one by one. */
  lemma OddReadShifts(a: seq<byte>, b: seq<byte>)
    requires |a| % 2 == 1
    ensures Decode(a + b) == Decode(a) + Decode([a[|a| - 1]] + b)
  {
    var front := a[..|a| - 1];
    assert a == front + [a[|a| - 1]];
    assert a + b == front + ([a[|a| - 1]] + b);
    EvenReadsCompose(front, [a[|a| - 1]] + b);
    OddByteDropped(front, a[|a| - 1]);
  }

  /** Two reads of odd length, decoded one by one, yield one sample fewer
      than the stream they form: the two leftover bytes make a pair that is
      never decoded. */
  lemma OddReadsLoseSample(a: seq<byte>, b: seq<byte>)
    requires |a| % 2 == 1 && |b| % 2 == 1
    ensures |Decode(a) + Decode(b)| + 1 == |Decode(a + b)|
  {
  }

  /** Because every read is decoded on its own, a read that delivers an odd
      number of bytes loses its last byte and shifts the pairing of every
      later byte of the stream: here the stream 01 02 03 read as [01] and
      [02 03] yields the sample 0x0302 instead of 0x0201. */
  lemma OddReadMisaligns()
    ensures Decode([1]) + Decode([2, 3]) != Decode([1, 2, 3])
  {
    assert Decode([1]) == [];
    assert Decode([2, 3]) == [FromLe(2, 3)];
    assert Decode([1, 2, 3]) == [FromLe(1, 2)];
    assert FromLe(2, 3) == 0x0302;
    assert FromLe(1, 2) == 0x0201;
    assert (Decode([1]) + Decode([2, 3]))[0] != Decode([1, 2, 3])[0];
  }
}

=== FILE: session.dfy ===
/**
  The program's two loops as one machine: listening for commands, typing
  dictated text, or stopped after a fatal recogniser error. Every external
  happening of one loop iteration is an `Event`; every process the loop
  spawns, and every recogniser reset, is an `Effect`. Spawning is fire and
  forget: whether the process starts is never observed, so no effect's
  outcome feeds back into the state.
 */
module Session {
  import opened Options
  import opened Text
  import opened Dispatch
  import opened ShellQuote

  datatype Mode = Listening(listener: Listener) | Typing | Halted

  datatype Key = Esc | OtherKey

  /** `Audio`: a read returned bytes and the recogniser accepted them; it
      reports its current partial and, if it finalised a single result, that
      result's text. `EndOfStream`: the microphone closed (a zero-byte read).
      `ReadFailed`: the read returned an error. `DecodeFailed`: the
      recogniser rejected the samples. `TerminalFailed`: key polling or raw
      mode failed. */
  datatype Event =
    | Audio(partial: string, final: Option<string>, heardAt: nat, checkedAt: nat)
    | KeyPressed(key: Key, now: nat)
    | TerminalFailed(now: nat)
    | EndOfStream(now: nat)
    | ReadFailed
    | DecodeFailed

  /** `Spawn`: `sh -c` with the given command line. `StartMicrophone`: a new
      `rec` process and a new recogniser, which every listening pass and every
      stay in typing mode begins with. `ResetRecognizer`: the silence timer's
      reset of the current recogniser. */
  datatype Effect = Spawn(commandLine: string) | StartMicrophone | ResetRecognizer

  /** A command line that types one word: `xdotool type <word>`. */
  predicate IsTypeLine(line: string) {
    var w := Words(line);
    w.Some? && |w.value| == 3 && w.value[0] == "xdotool" && w.value[1] == "type"
  }

  /** The listening loop's reaction to an accepted chunk whose partial,
      normalised, is `p`. */
  function HearChunk(commands: map<string, string>, l: Listener, p: string, heardAt: nat, checkedAt: nat)
    : (r: (Mode, seq<Effect>))
    ensures r.0 != Halted
    ensures forall f :: f in r.1 && f.Spawn? ==> f.commandLine in commands.Values && f.commandLine != ""
    ensures forall c :: Spawn(c) in r.1 <==>
      && p != ""
      && p != l.lastPartial
      && p != TogglePhrase
      && p in commands
      && commands[p] == c
      && c != ""
    ensures r.0.Listening? ==> r.0.listener == Step(commands, l, p, heardAt, checkedAt).listener
    ensures r.0 == Typing <==> p == TogglePhrase && l.lastPartial != TogglePhrase
    ensures r.0 == Typing ==> r.1 == [StartMicrophone]
    ensures StartMicrophone in r.1 <==> r.0 == Typing
    ensures ResetRecognizer in r.1 <==> Step(commands, l, p, heardAt, checkedAt).reset
    // each effect happens at most once
    ensures |r.1| <= 2
    ensures forall i, j :: 0 <= i < j < |r.1| ==> r.1[i] != r.1[j]
    // the command is spawned before the silence timer resets the recogniser
    ensures |r.1| == 2 ==> r.1[0].Spawn? && r.1[1] == ResetRecognizer
  {
    var o := Step(commands, l, p, heardAt, checkedAt);
    if o.decision == EnterTyping then (Typing, [StartMicrophone])
    else
      var spawned := if o.decision.RunCommand? then [Spawn(o.decision.cmd)] else [];
      var reset := if o.reset then [ResetRecognizer] else [];
      (Listening(o.listener), spawned + reset)
  }

  /** One iteration of the listening loop. Keys are not polled while
      listening, so key and terminal events change nothing; neither does a
      failed read, which the loop skips. */
  function ListeningNext(commands: map<string, string>, l: Listener, e: Event): (r: (Mode, seq<Effect>))
    ensures r.0 == Halted <==> e == DecodeFailed
    // a rejected chunk ends the program before anything else happens
    ensures e == DecodeFailed ==> r == (Halted, [])
    ensures forall f :: f in r.1 && f.Spawn? ==> f.commandLine in commands.Values && f.commandLine != ""
    // a new partial that is a key with a non-empty value runs exactly that value
    ensures e.Audio? ==> var p := Normalize(e.partial);
      forall c :: Spawn(c) in r.1 <==>
        && p != ""
        && p != l.lastPartial
        && p != TogglePhrase
        && p in commands
        && commands[p] == c
        && c != ""
    ensures e.Audio? && r.0.Listening? ==>
      r.0.listener == Step(commands, l, Normalize(e.partial), e.heardAt, e.checkedAt).listener
    ensures r.0 == Typing <==>
      e.Audio? && Normalize(e.partial) == TogglePhrase && l.lastPartial != TogglePhrase
    ensures r.0 == Typing ==> r.1 == [StartMicrophone]
    ensures StartMicrophone in r.1 <==> r.0 == Typing || e.EndOfStream?
    ensures e.Audio? ==>
      (ResetRecognizer in r.1 <==> Step(commands, l, Normalize(e.partial), e.heardAt, e.checkedAt).reset)
    ensures e.EndOfStream? ==> r == (Listening(StartPass(e.now)), [StartMicrophone])
    // a failed read is skipped, and keys are not polled
    ensures e.KeyPressed? || e.TerminalFailed? || e == ReadFailed ==> r == (Listening(l), [])
    ensures |r.1| == 2 ==> r.1[0].Spawn? && r.1[1] == ResetRecognizer
    // each effect happens at most once
    ensures |r.1| <= 2
    ensures forall i, j :: 0 <= i < j < |r.1| ==> r.1[i] != r.1[j]
  {
    match e
    case Audio(raw, _, heardAt, checkedAt) => HearChunk(commands, l, Normalize(raw), heardAt, checkedAt)
    case EndOfStream(now) => (Listening(StartPass(now)), [StartMicrophone])
    case DecodeFailed => (Halted, [])
    case _ => (Listening(l), [])
  }

  /** What typing mode spawns for the final result of a chunk, if any. */
  function TypeFinal(final: Option<string>): (r: seq<Effect>)
    ensures forall f :: f in r ==> f.Spawn? && IsTypeLine(f.commandLine)
    ensures final.None? || AllWhitespace(final.value) ==> r == []
    ensures final.Some? && !AllWhitespace(final.value) ==>
      |r| == 1 && Words(r[0].commandLine) == Some(["xdotool", "type", Trim(final.value)])
  {
    var typed := if final.Some? then TypeCommand(final.value) else None;
    if typed.Some? then [Spawn(typed.value)] else []
  }

  /** One iteration of the typing loop: finalised text is typed; Esc, a
      terminal error or the end of the microphone stream end typing mode and
      start a fresh listening pass. */
  function TypingNext(e: Event): (r: (Mode, seq<Effect>))
    ensures r.0 == Halted <==> e == DecodeFailed
    ensures e == DecodeFailed ==> r == (Halted, [])
    ensures forall f :: f in r.1 && f.Spawn? ==> IsTypeLine(f.commandLine)
    ensures ResetRecognizer !in r.1
    ensures e.Audio? ==> r.0 == Typing
    ensures r.0.Listening? <==> (e.KeyPressed? && e.key == Esc) || e.TerminalFailed? || e.EndOfStream?
    ensures r.0.Listening? ==>
      && (e.KeyPressed? || e.TerminalFailed? || e.EndOfStream?)
      && r.0.listener == StartPass(e.now)
      && r.1 == [StartMicrophone]
    ensures StartMicrophone in r.1 <==> r.0.Listening?
    // a chunk types its final result, if any; other keys and failed reads do nothing
    ensures e.Audio? ==> r.1 == TypeFinal(e.final)
    ensures (e.KeyPressed? && e.key == OtherKey) || e == ReadFailed ==> r == (Typing, [])
  {
    match e
    case Audio(_, final, _, _) => (Typing, TypeFinal(final))
    case KeyPressed(Esc, now) => (Listening(StartPass(now)), [StartMicrophone])
    case KeyPressed(OtherKey, _) => (Typing, [])
    case TerminalFailed(now) => (Listening(StartPass(now)), [StartMicrophone])
    case EndOfStream(now) => (Listening(StartPass(now)), [StartMicrophone])
    case ReadFailed => (Typing, [])
    case DecodeFailed => (Halted, [])
  }

  /** One loop iteration in whichever mode the program is in. */
  function Next(commands: map<string, string>, m: Mode, e: Event): (r: (Mode, seq<Effect>))
    // a fatal decode error stops the program for good
    ensures r.0 == Halted <==> m == Halted || e == DecodeFailed
    ensures m == Halted || e == DecodeFailed ==> r == (Halted, [])
    // while listening, only configured, non-empty commands are spawned, and
    // a new partial that is such a key spawns exactly its value
    ensures m.Listening? ==> forall f :: f in r.1 && f.Spawn? ==>
      f.commandLine in commands.Values && f.commandLine != ""
    ensures m.Listening? && e.Audio? ==> var p := Normalize(e.partial);
      forall c :: Spawn(c) in r.1 <==>
        && p != ""
        && p != m.listener.lastPartial
        && p != TogglePhrase
        && p in commands
        && commands[p] == c
        && c != ""
    ensures m.Listening? && e.Audio? && r.0.Listening? ==>
      r.0.listener == Step(commands, m.listener, Normalize(e.partial), e.heardAt, e.checkedAt).listener
    ensures m.Listening? ==> |r.1| <= 2
    // a chunk starts the microphone only on entering typing mode, and resets
    // the recogniser exactly when the silence timer fires
    ensures m.Listening? && e.Audio? ==> (StartMicrophone in r.1 <==> r.0 == Typing)
    ensures m.Listening? && e.Audio? ==>
      var o := Step(commands, m.listener, Normalize(e.partial), e.heardAt, e.checkedAt);
      (ResetRecognizer in r.1 <==> o.reset)
    ensures m.Listening? ==> forall i, j :: 0 <= i < j < |r.1| ==> r.1[i] != r.1[j]
    // while listening, keys, terminal errors and failed reads change nothing
    ensures m.Listening? && (e.KeyPressed? || e.TerminalFailed? || e == ReadFailed) ==> r == (m, [])
    // while typing, only `xdotool type` lines are spawned
    ensures m == Typing ==> forall f :: f in r.1 && f.Spawn? ==> IsTypeLine(f.commandLine)
    // listening switches to typing exactly on a new "type on", which starts
    // the microphone and spawns nothing
    ensures m.Listening? ==> (r.0 == Typing <==>
      e.Audio? && Normalize(e.partial) == TogglePhrase && m.listener.lastPartial != TogglePhrase)
    ensures m.Listening? && r.0 == Typing ==> r.1 == [StartMicrophone]
    // the end of the microphone stream restarts the listening pass
    ensures m.Listening? && e.EndOfStream? ==> r == (Listening(StartPass(e.now)), [StartMicrophone])
    // speech never ends typing mode; Esc, a terminal error or the end of the
    // stream do, and leaving starts a fresh pass
    ensures m == Typing && e.Audio? ==> r.0 == Typing && r.1 == TypeFinal(e.final)
    ensures m == Typing && ((e.KeyPressed? && e.key == OtherKey) || e == ReadFailed) ==> r == (Typing, [])
    ensures m == Typing ==>
      (r.0.Listening? <==> (e.KeyPressed? && e.key == Esc) || e.TerminalFailed? || e.EndOfStream?)
    ensures m == Typing && r.0.Listening? ==>
      && (e.KeyPressed? || e.TerminalFailed? || e.EndOfStream?)
      && r.0.listener == StartPass(e.now)
      && r.1 == [StartMicrophone]
  {
    match m
    case Halted => (Halted, [])
    case Listening(l) => ListeningNext(commands, l, e)
    case Typing => TypingNext(e)
  }

  /** Typing mode types every finalised text that is not blank, as the single
      shell word after `xdotool type` equal to the trimmed text; the toggle
      phrase included. */
  lemma TypingTypesFinalText(commands: map<string, string>, e: Event)
    requires e.Audio? && e.final.Some? && !AllWhitespace(e.final.value)
    ensures var r := Next(commands, Typing, e);
      && r.0 == Typing
      && |r.1| == 1
      && r.1[0].Spawn?
      && Words(r.1[0].commandLine) == Some(["xdotool", "type", Trim(e.final.value)])
  {
  }

  /** Blank finalised text and non-final chunks type nothing. */
  lemma TypingSkipsBlank(commands: map<string, string>, e: Event)
    requires e.Audio? && (e.final.None? || AllWhitespace(e.final.value))
    ensures Next(commands, Typing, e) == (Typing, [])
  {
  }

  /** A whole run of events, collecting the effects in order: the loops of
      the program from a given mode. */
  function Run(commands: map<string, string>, m: Mode, es: seq<Event>): (r: (Mode, seq<Effect>))
    // the run ends stopped exactly when it started stopped or a decode failed
    ensures r.0 == Halted <==> m == Halted || DecodeFailed in es
    ensures es == [] ==> r == (m, [])
    decreases |es|
  {
    if es == [] then (m, [])
    else
      var first := Next(commands, m, es[0]);
      var rest := Run(commands, first.0, es[1..]);
      assert DecodeFailed in es <==> es[0] == DecodeFailed || DecodeFailed in es[1..] by {
        assert es == [es[0]] + es[1..];
      }
      (rest.0, first.1 + rest.1)
  }

  /** Once stopped, nothing happens any more. */
  lemma {:induction false} HaltedIsFinal(commands: map<string, string>, es: seq<Event>)
    ensures Run(commands, Halted, es) == (Halted, [])
    decreases |es|
  {
    if es != [] {
      HaltedIsFinal(commands, es[1..]);
      var none: seq<Effect> := [];
      assert none + none == none;
    }
  }

  /** Over any run, the only `sh -c` lines the program spawns are configured
      non-empty commands and `xdotool type` lines. */
  lemma {:induction false} RunSpawnsOnlyKnownLines(
    commands: map<string, string>, m: Mode, es: seq<Event>)
    ensures forall f :: f in Run(commands, m, es).1 && f.Spawn? ==>
      (f.commandLine in commands.Values && f.commandLine != "") || IsTypeLine(f.commandLine)
    decreases |es|
  {
    if es != [] {
      var (m1, f1) := Next(commands, m, es[0]);
      RunSpawnsOnlyKnownLines(commands, m1, es[1..]);
    }
  }
}

=== FILE: shell.dfy ===
/**
  Typing mode: a finalised transcript is trimmed, skipped when empty, and
  otherwise typed by running `sh -c "xdotool type '<escaped>'"`, where every
  single quote of the text is replaced by `'\''`.

  The partner of the escaping is a reader of shell words following the POSIX
  Shell Command Language (XCU section 2.2, "Quoting"): inside single quotes
  every character stands for itself up to the next single quote; outside
  quotes a backslash preserves the literal value of the character after it
  and an unquoted blank ends a word. The reader accepts only that fragment of
  the shell language: any other unquoted character that the shell could treat
  specially makes it give up with `None`.
 */
module ShellQuote {
  import opened Options
  import opened Text

  /** Rust's `str::replace` of every single quote by the four characters
      quote, backslash, quote, quote: close the quote, emit an escaped quote,
      reopen the quote. */
  function Escape(text: string): (r: string)
    ensures |r| >= |text|
    ensures r == text <==> '\'' !in text
  {
    if text == [] then []
    else (if text[0] == '\'' then "'\\''" else [text[0]]) + Escape(text[1..])
  }

  /** Escaping adds exactly three characters per single quote. */
  lemma {:induction false} EscapeLength(text: string)
    ensures |Escape(text)| == |text| + 3 * multiset(text)['\'']
  {
    if text != [] {
      EscapeLength(text[1..]);
      assert text == [text[0]] + text[1..];
    }
  }

  /** The single-quoted argument placed after `xdotool type`: opens and
      closes with a quote, and is two characters longer than the text plus
      three per quote inside it. `QuoteReadsBack` shows the shell reads it as
      the text itself. */
  function Quote(text: string): (r: string)
    ensures |r| == |text| + 2 + 3 * multiset(text)['\'']
    ensures r[0] == '\'' && r[|r| - 1] == '\''
  {
    EscapeLength(text);
    "'" + Escape(text) + "'"
  }

  /** Separates words when unquoted. */
  predicate IsBlank(c: char) {
    c == ' ' || c == '\t'
  }

  /** Characters that stand for themselves when unquoted in any position of a
      word: no expansion, globbing, redirection, assignment or comment. */
  predicate IsPlain(c: char) {
    || ('a' <= c <= 'z')
    || ('A' <= c <= 'Z')
    || ('0' <= c <= '9')
    || c in "-_./,:+@"
  }

  /** Reads the rest of a command line outside quotes. `words` are the words
      already completed; `cur` is the word being built, which exists once
      `inWord` holds (so `''` is an empty word, not no word). */
  function Lex(w: string, words: seq<string>, cur: string, inWord: bool): (r: Option<seq<string>>)
    decreases |w|
  {
    if w == [] then Some(if inWord then words + [cur] else words)
    else if IsBlank(w[0]) then Lex(w[1..], if inWord then words + [cur] else words, "", false)
    else if w[0] == '\'' then LexQuoted(w[1..], words, cur)
    else if w[0] == '\\' then
      if |w| >= 2 && w[1] != '\n' then Lex(w[2..], words, cur + [w[1]], true) else None
    else if IsPlain(w[0]) then Lex(w[1..], words, cur + [w[0]], true)
    else None
  }

  /** Reads the rest of a command line inside single quotes; an unterminated
      quote is an error. */
  function LexQuoted(w: string, words: seq<string>, cur: string): (r: Option<seq<string>>)
    decreases |w|
  {
    if w == [] then None
    else if w[0] == '\'' then Lex(w[1..], words, cur, true)
    else LexQuoted(w[1..], words, cur + [w[0]])
  }

  /** The argument vector the shell builds from a command line. */
  function Words(line: string): (r: Option<seq<string>>) {
    Lex(line, [], "", false)
  }

  lemma LexOpensQuote(w: string, words: seq<string>, cur: string, inWord: bool)
    ensures Lex("'" + w, words, cur, inWord) == LexQuoted(w, words, cur)
  {
    assert ("'" + w)[1..] == w;
  }

  lemma LexEscapedChar(c: char, w: string, words: seq<string>, cur: string, inWord: bool)
    requires c != '\n'
    ensures Lex(['\\', c] + w, words, cur, inWord) == Lex(w, words, cur + [c], true)
  {
    assert (['\\', c] + w)[2..] == w;
  }

  lemma LexQuotedChar(c: char, w: string, words: seq<string>, cur: string)
    requires c != '\''
    ensures LexQuoted([c] + w, words, cur) == LexQuoted(w, words, cur + [c])
  {
    assert ([c] + w)[1..] == w;
  }

  lemma LexClosesQuote(w: string, words: seq<string>, cur: string)
    ensures LexQuoted("'" + w, words, cur) == Lex(w, words, cur, true)
  {
    assert ("'" + w)[1..] == w;
  }

  /** The escape sequence `'\''` read inside quotes: close, escaped quote,
      reopen — one literal quote added to the word. */
  lemma EscapedQuoteReadsBack(e: string, rest: string, words: seq<string>, cur: string)
    ensures LexQuoted("'\\''" + e + "'" + rest, words, cur)
         == LexQuoted(e + "'" + rest, words, cur + ['\''])
  {
    var x := e + "'" + rest;
    assert "'\\''" + e + "'" + rest == "'" + (['\\', '\''] + ("'" + x)) by {
      assert "'\\''" == "'" + ['\\', '\''] + "'";
    }
    LexClosesQuote(['\\', '\''] + ("'" + x), words, cur);
    LexEscapedChar('\'', "'" + x, words, cur, true);
    LexOpensQuote(x, words, cur + ['\''], true);
  }

  /** Reading the escape of the first character of a text inside quotes
      adds that character to the current word. */
  lemma EscapedFirstReadsBack(t: string, rest: string, words: seq<string>, cur: string)
    requires t != []
    ensures LexQuoted(Escape(t) + "'" + rest, words, cur)
         == LexQuoted(Escape(t[1..]) + "'" + rest, words, cur + [t[0]])
  {
    var c := t[0];
    var e := Escape(t[1..]);
    if c == '\'' {
      assert Escape(t) == "'\\''" + e;
      EscapedQuoteReadsBack(e, rest, words, cur);
    } else {
      assert Escape(t) == [c] + e;
      assert Escape(t) + "'" + rest == [c] + (e + "'" + rest);
      LexQuotedChar(c, e + "'" + rest, words, cur);
    }
  }

  /** Inside quotes, an escaped text followed by the closing quote contributes
      exactly the text to the current word. */
  lemma {:induction false} EscapedReadsBack(t: string, rest: string, words: seq<string>, cur: string)
    ensures LexQuoted(Escape(t) + "'" + rest, words, cur) == Lex(rest, words, cur + t, true)
    decreases |t|
  {
    if t == [] {
      EscapedEmptyReadsBack(rest, words, cur);
      assert cur + t == cur;
    } else {
      EscapedFirstReadsBack(t, rest, words, cur);
      EscapedReadsBack(t[1..], rest, words, cur + [t[0]]);
      assert cur + [t[0]] + t[1..] == cur + t;
    }
  }

  lemma EscapedEmptyReadsBack(rest: string, words: seq<string>, cur: string)
    ensures LexQuoted(Escape([]) + "'" + rest, words, cur) == Lex(rest, words, cur, true)
  {
    assert Escape([]) + "'" + rest == "'" + rest;
    LexClosesQuote(rest, words, cur);
  }

  /** A quoted argument at the end of a line completes one word equal to the
      text. */
  lemma QuotedWordReadsBack(t: string, words: seq<string>)
    ensures Lex(Quote(t), words, "", false) == Some(words + [t])
  {
    var body := Escape(t) + "'";
    assert Quote(t) == "'" + body;
    LexOpensQuote(body, words, "", false);
    assert body == Escape(t) + "'" + "";
    EscapedReadsBack(t, "", words, "");
    assert "" + t == t;
  }

  /** POSIX single-quote round trip: the quoted argument is read by the shell
      as one word equal to the text, whatever the text contains. */
  lemma QuoteReadsBack(t: string)
    ensures Words(Quote(t)) == Some([t])
  {
    QuotedWordReadsBack(t, []);
    var none: seq<string> := [];
    assert none + [t] == [t];
  }

  /** Quoting loses nothing: different texts give different arguments. */
  lemma QuoteInjective(a: string, b: string)
    requires Quote(a) == Quote(b)
    ensures a == b
  {
    QuoteReadsBack(a);
    QuoteReadsBack(b);
  }

  /** The command run through `sh -c` to type the text. */
  const TypePrefix: string := "xdotool type "

  /** What typing mode spawns for one finalised transcript: nothing when the
      trimmed text is empty, otherwise an `xdotool type` command line whose
      third shell word is exactly the trimmed text. */
  function TypeCommand(text: string): (r: Option<string>)
    ensures r.None? <==> AllWhitespace(text)
    ensures r.Some? ==> Words(r.value) == Some(["xdotool", "type", Trim(text)])
  {
    var t := Trim(text);
    if t == [] then None
    else
      TypeLineWords(t);
      Some(TypePrefix + Quote(t))
  }

  /** A run of plain characters extends the current word. */
  lemma {:induction false} PlainRunExtends(
    p: string, rest: string, words: seq<string>, cur: string, inWord: bool)
    requires |p| > 0
    requires forall i :: 0 <= i < |p| ==> IsPlain(p[i])
    ensures Lex(p + rest, words, cur, inWord) == Lex(rest, words, cur + p, true)
    decreases |p|
  {
    assert (p + rest)[1..] == p[1..] + rest;
    if |p| > 1 {
      PlainRunExtends(p[1..], rest, words, cur + [p[0]], true);
      assert cur + [p[0]] + p[1..] == cur + p;
    } else {
      assert p[1..] + rest == rest;
      assert cur + [p[0]] == cur + p;
    }
  }

  lemma TypeLineWords(t: string)
    ensures Words(TypePrefix + Quote(t)) == Some(["xdotool", "type", t])
  {
    var q := Quote(t);
    assert TypePrefix + q == "xdotool" + (" " + ("type" + (" " + q)));
    PlainRunExtends("xdotool", " " + ("type" + (" " + q)), [], "", false);
    LexBlank("type" + (" " + q), [], "xdotool", true);
    PlainRunExtends("type", " " + q, ["xdotool"], "", false);
    LexBlank(q, ["xdotool"], "type", true);
    QuotedWordReadsBack(t, ["xdotool", "type"]);
    assert "" + "xdotool" == "xdotool";
    assert "" + "type" == "type";
    var none: seq<string> := [];
    assert none + ["xdotool"] == ["xdotool"];
    assert ["xdotool"] + ["type"] == ["xdotool", "type"];
    assert ["xdotool", "type"] + [t] == ["xdotool", "type", t];
  }

  lemma LexBlank(w: string, words: seq<string>, cur: string, inWord: bool)
    ensures Lex(" " + w, words, cur, inWord)
         == Lex(w, if inWord then words + [cur] else words, "", false)
  {
    assert (" " + w)[1..] == w;
  }
}

=== FILE: text.dfy ===
/**
  Text normalisation shared by the listening and typing loops: the `trim`
  applied to every partial and final transcript, and the lower-casing applied
  to partials before they are compared with the command table.
 */
module Text {

  /** The characters with the Unicode White_Space property, which Rust's
      `str::trim` strips. */
  const WhiteSpace: set<char> := {
    '\t', '\n', '\U{B}', '\U{C}', '\r', ' ', '\U{85}', '\U{A0}', '\U{1680}',
    '\U{2000}', '\U{2001}', '\U{2002}', '\U{2003}', '\U{2004}', '\U{2005}',
    '\U{2006}', '\U{2007}', '\U{2008}', '\U{2009}', '\U{200A}',
    '\U{2028}', '\U{2029}', '\U{202F}', '\U{205F}', '\U{3000}'
  }

  predicate IsWhitespace(c: char) {
    c in WhiteSpace
  }

  predicate AllWhitespace(s: string) {
    forall i :: 0 <= i < |s| ==> IsWhitespace(s[i])
  }

  /** Length of the longest all-whitespace prefix of `s`. */
  function LeadingWhitespace(s: string): (n: nat)
    ensures n <= |s|
    ensures AllWhitespace(s[..n])
    ensures n < |s| ==> !IsWhitespace(s[n])
  {
    if |s| > 0 && IsWhitespace(s[0]) then 1 + LeadingWhitespace(s[1..]) else 0
  }

  /** Length of the longest all-whitespace suffix of `s`. */
  function TrailingWhitespace(s: string): (n: nat)
    ensures n <= |s|
    ensures AllWhitespace(s[|s| - n..])
    ensures n < |s| ==> !IsWhitespace(s[|s| - n - 1])
  {
    if |s| > 0 && IsWhitespace(s[|s| - 1]) then 1 + TrailingWhitespace(s[..|s| - 1]) else 0
  }

  /** `str::trim`: `s` with its leading and trailing whitespace removed. The
      result is the unique slice of `s` that neither starts nor ends with
      whitespace and is surrounded by whitespace only. */
  function Trim(s: string): (r: string)
    ensures |r| > 0 ==> !IsWhitespace(r[0]) && !IsWhitespace(r[|r| - 1])
    ensures var k := LeadingWhitespace(s);
      && k + |r| <= |s|
      && r == s[k..k + |r|]
      && AllWhitespace(s[..k])
      && AllWhitespace(s[k + |r|..])
    ensures r == [] <==> AllWhitespace(s)
  {
    var k := LeadingWhitespace(s);
    var m := TrailingWhitespace(s[k..]);
    assert TrimCuts(s, k, m);
    TrimmedEdges(s, k, m);
    TrimmedSurroundings(s, k, m);
    TrimmedEmpty(s, k, m);
    s[k..|s| - m]
  }

  /** The facts the two whitespace counts establish about `s`: the first `k`
      characters are whitespace and the next is not; of the rest `s[k..]`,
      the last `m` characters are whitespace and the one before is not. */
  ghost predicate TrimCuts(s: string, k: nat, m: nat) {
    && k + m <= |s|
    && AllWhitespace(s[..k])
    && (k < |s| ==> !IsWhitespace(s[k]))
    && AllWhitespace(s[k..][|s| - k - m..])
    && (m < |s| - k ==> !IsWhitespace(s[k..][|s| - k - m - 1]))
  }

  lemma TrimmedEdges(s: string, k: nat, m: nat)
    requires TrimCuts(s, k, m)
    ensures var r := s[k..|s| - m];
      |r| > 0 ==> !IsWhitespace(r[0]) && !IsWhitespace(r[|r| - 1])
  {
    if k < |s| - m {
      assert s[k..|s| - m][0] == s[k];
      assert s[k..|s| - m][|s| - m - k - 1] == s[k..][|s| - k - m - 1];
    }
  }

  lemma TrimmedSurroundings(s: string, k: nat, m: nat)
    requires TrimCuts(s, k, m)
    ensures AllWhitespace(s[|s| - m..])
  {
    var tail := s[|s| - m..];
    var cut := s[k..][|s| - k - m..];
    forall i | 0 <= i < |tail|
      ensures IsWhitespace(tail[i])
    {
      assert tail[i] == cut[i];
    }
  }

  lemma TrimmedEmpty(s: string, k: nat, m: nat)
    requires TrimCuts(s, k, m)
    ensures k == |s| - m <==> AllWhitespace(s)
  {
    var t := s[k..];
    if k == |s| - m {
      assert t[|t| - m..] == t;
      AllWhitespaceConcat(s[..k], t);
      assert s == s[..k] + t;
    }
    assert AllWhitespace(s) ==> k == |s| by {
      if k < |s| {
        assert !IsWhitespace(s[k]);
      }
    }
  }

  lemma AllWhitespaceConcat(a: string, b: string)
    requires AllWhitespace(a) && AllWhitespace(b)
    ensures AllWhitespace(a + b)
  {
    forall i | 0 <= i < |a + b|
      ensures IsWhitespace((a + b)[i])
    {
      if i < |a| {
        assert (a + b)[i] == a[i];
      } else {
        assert (a + b)[i] == b[i - |a|];
      }
    }
  }

  /** A trimmed string is left alone by a second trim. */
  lemma TrimIdempotent(s: string)
    ensures Trim(Trim(s)) == Trim(s)
  {
    var r := Trim(s);
    if |r| > 0 {
      assert LeadingWhitespace(r) == 0;
      assert TrailingWhitespace(r) == 0;
    }
  }

  /** ASCII lower-casing of one character. */
  function LowerChar(c: char): (d: char)
    ensures 'A' <= c <= 'Z' ==> 'a' <= d <= 'z' && d as int == c as int + 32
    ensures !('A' <= c <= 'Z') ==> d == c
    ensures !('A' <= d <= 'Z')
    ensures IsWhitespace(d) == IsWhitespace(c)
  {
    if 'A' <= c <= 'Z' then (c as int + 32) as char else c
  }

  /** `str::to_lowercase`, restricted to the ASCII letters. */
  function Lower(s: string): (r: string)
    ensures |r| == |s|
    ensures forall i :: 0 <= i < |s| ==>
      if 'A' <= s[i] <= 'Z' then r[i] as int == s[i] as int + 32 else r[i] == s[i]
    ensures forall i :: 0 <= i < |r| ==> !('A' <= r[i] <= 'Z')
  {
    seq(|s|, i requires 0 <= i < |s| => LowerChar(s[i]))
  }

  /** The normal form in which partial transcripts are compared: trimmed,
      then lower-cased. */
  function Normalize(s: string): (r: string)
    ensures |r| <= |s|
    ensures r == [] <==> AllWhitespace(s)
    ensures |r| > 0 ==> !IsWhitespace(r[0]) && !IsWhitespace(r[|r| - 1])
    ensures forall i :: 0 <= i < |r| ==> !('A' <= r[i] <= 'Z')
  {
    var t := Trim(s);
    var l := Lower(t);
    if |t| > 0 then LowerAt(t, 0); LowerAt(t, |t| - 1); l else l
  }

  /** A string that neither starts nor ends with whitespace is its own trim. */
  lemma TrimOfUnpadded(s: string)
    requires |s| > 0 ==> !IsWhitespace(s[0]) && !IsWhitespace(s[|s| - 1])
    ensures Trim(s) == s
  {
    if |s| > 0 {
      assert LeadingWhitespace(s) == 0;
      assert s[0..] == s;
      assert TrailingWhitespace(s) == 0;
      assert s[..|s|] == s;
    } else {
      assert AllWhitespace(s);
    }
  }

  lemma LowerAt(s: string, i: nat)
    requires i < |s|
    ensures Lower(s)[i] == LowerChar(s[i])
  {
  }

  /** Lower-casing keeps every character's whitespace status, so it commutes
      with trimming. */
  lemma LowerKeepsTrimmed(s: string)
    requires Trim(s) == s
    ensures Trim(Lower(s)) == Lower(s)
  {
    assert |s| > 0 ==> !IsWhitespace(s[0]) && !IsWhitespace(s[|s| - 1]);
    LowerUnpadded(s);
  }

  lemma LowerUnpadded(s: string)
    requires |s| > 0 ==> !IsWhitespace(s[0]) && !IsWhitespace(s[|s| - 1])
    ensures Trim(Lower(s)) == Lower(s)
  {
    var l := Lower(s);
    if |s| > 0 {
      LowerAt(s, 0);
      LowerAt(s, |s| - 1);
    }
    TrimOfUnpadded(l);
  }

  /** Lower-casing an already lower-cased string changes nothing. */
  lemma LowerIdempotent(s: string)
    ensures Lower(Lower(s)) == Lower(s)
  {
    var l := Lower(s);
    forall i | 0 <= i < |l|
      ensures Lower(l)[i] == l[i]
    {
      assert l[i] == LowerChar(s[i]);
    }
  }

  /** The normal form is the trimmed text lower-cased character by
      character: it starts where the leading whitespace ends, and only
      whitespace follows it. */
  lemma NormalizeIsLoweredSlice(s: string)
    ensures var r := Normalize(s);
      var k := LeadingWhitespace(s);
      && k + |r| <= |s|
      && AllWhitespace(s[k + |r|..])
      && forall i :: 0 <= i < |r| ==> r[i] == LowerChar(s[k + i])
  {
    var t := Trim(s);
    var k := LeadingWhitespace(s);
    forall i | 0 <= i < |t|
      ensures Normalize(s)[i] == LowerChar(s[k + i])
    {
      LowerAt(t, i);
    }
  }

  /** Normalising twice is normalising once: a normalised partial is a fixed
      point of the normalisation applied to every transcript. */
  lemma NormalizeIdempotent(s: string)
    ensures Normalize(Normalize(s)) == Normalize(s)
  {
    var t := Trim(s);
    var l := Lower(t);
    TrimIdempotent(s);
    LowerKeepsTrimmed(t);
    assert Trim(l) == l;
    LowerIdempotent(t);
    assert Normalize(l) == Lower(l);
  }
}
